=== FILE: README.md ===
# Productivity timers: a Dafny model of the timer and todo-list logic

This project models the logic underneath the two widgets of the productivity-timers
page, leaving the browser wiring aside:

- the `ProductivityTimer` state machine of `script.js` (pomodoro work/break cycle and
  two-minute rule, with `start`, `pause`, `reset`, `tick`, `switchMode`, the duration
  and mode settings and the space-bar toggle), the `MM`/`SS` rendering of
  `updateDisplay`, the `HH:MM:SS` rendering of `updateFullscreenDisplay`, and the
  one-second bodies of the fullscreen countdown and stopwatch;
- the `TodoOrganizer` of `scripts/todo.js`: task records, `addTodo` (with JavaScript's
  `trim`), `toggleComplete`, `deleteTodo`, `updateTodoOrder`, `getDragAfterElement`
  and the `dragover` placement, `moveTodoUp`/`moveTodoDown`, and `updateEmptyState`.

Everything is immutable data and pure functions. The page's list is modelled as the
sequence of task ids of its elements in page order (`Organizer.view`), beside the
stored record list (`Organizer.todos`); `Organizer.Consistent` says the two agree and
ids are unique. Element geometry for dragging is a `Drag.Box` of whole pixels, and the
source's offset `y - top - height / 2` is doubled so that it stays an integer.

JavaScript arithmetic is written out: `Math.floor(x / 60)` is Dafny's `/` (they agree
for a positive divisor) and `%` is `Decimal.JsRem`, which truncates toward zero. Every
rendering has a reader (`ClockFormat.ReadFace`, `ClockFormat.ReadHms`,
`Decimal.ParseDecimal`) and the contracts state the round trip.

The pomodoro selection of `showPomodoroMode` is modelled twice (see Findings). The
event machine `Timer.Step` takes a `Timer.Program` that picks the transition as
written or the corrected one; every other transition is shared, and the lemmas say
for which program they hold.

Files: `wrappers.dfy` (Option), `decimal.dfy`, `clock_format.dfy`, `timer.dfy`,
`fullscreen.dfy`, `trim.dfy`, `todo_list.dfy`, `drag.dfy`, `organizer.dfy`.

## Model

| member | source | states |
|---|---|---|
| Decimal.DecimalString | script.js:82 | `n.toString()` is a non-empty digit string with no leading zero (zero itself is "0"), one digit exactly when `n < 10` |
| Decimal.ParseDecimalString | script.js:82 | the numeral of `n` reads back as `n` |
| Decimal.Pad2 | script.js:82-83 | `String(n).padStart(2, '0')` of a non-negative number reads back as `n`; below 10 it is two digits (a leading '0' added), from 10 on it is the plain numeral, so exactly two characters iff `n < 100` |
| Decimal.JsRem | script.js:81 | JavaScript's `%` with a positive divisor: in `[0, b)` and equal to Dafny's `%` for a non-negative dividend; for a negative one in `(-b, 0]` and differing from the dividend by a multiple of `b`, which fixes the value (`-1 % 60` is -1) |
| ClockFormat.Face | script.js:79-84 | for `timeLeft >= 0` the minutes and seconds fields are digit strings, seconds exactly two digits below 60, minutes exactly two digits below 100 minutes and otherwise without a leading zero, and `minutes*60 + seconds == timeLeft`; reading the fields back gives `timeLeft` |
| ClockFormat.NegativeFace | script.js:80-83 | one second below zero renders as "-1" in both fields (floor division and truncating remainder), so a negative count is not a minutes/seconds split |
| ClockFormat.FullscreenText | script.js:252-259 | for `total >= 0` the text splits at ':' into three fields: the hours are `total / 3600` padded to two digits (two exactly below 100 hours), minutes and seconds exactly two digits below 60, and the text reads back as `hours*3600 + minutes*60 + seconds == total` |
| ClockFormat.MinutesSecondsSplit | script.js:80-81 | for a non-negative count, `Math.floor(t/60)*60 + t % 60 == t` with the seconds in `[0, 60)` |
| ClockFormat.HmsArithmetic | script.js:253-255 | for a non-negative count, hours, minutes and seconds recombine to the count, minutes and seconds in `[0, 60)` |
| Timer.Init | script.js:4-12 | the initial timer is stopped at the start of a 25-minute work phase (1500 seconds), pomodoro mode, no sessions, inside its phase |
| Timer.Start | script.js:86-91 | after `start` the timer runs; a running timer is left unchanged (so `start` is idempotent); no other field changes |
| Timer.PauseUndoesStart | script.js:86-96 | starting a stopped timer and pausing it gives back the same timer |
| Timer.Pause | script.js:93-96 | after `pause` the timer is stopped and no other field changes |
| Timer.Reset | script.js:98-107 | `reset` stops the timer; pomodoro mode loads `workTime*60` and clears `isBreak`; two-minute mode loads `twoMinuteTime*60` and keeps `isBreak`; settings, mode and sessions unchanged |
| Timer.SwitchMode | script.js:120-140 | pomodoro mode flips `isBreak`; entering a break loads `breakTime*60` with sessions unchanged; leaving one loads `workTime*60` and counts one session; two-minute mode loads `twoMinuteTime*60`, counts a session and stops the timer |
| Timer.Tick | script.js:109-118 | a tick lowers `timeLeft` by one and changes nothing else unless the count reaches zero; then pomodoro mode flips `isBreak` and keeps running, two-minute mode keeps `isBreak` and stops, and the new phase is loaded in full; with positive durations `timeLeft > 0` afterwards; sessions grow by one exactly when a break or two-minute run ends |
| Timer.TickShows | script.js:109-111 | the main display after a tick is the face of the decremented count, so it reads back as that count with the widths `ClockFormat.Face` fixes |
| Timer.PhaseEndDisplay | script.js:109-115 | the tick that ends a phase shows 00:00, and the next tick shows the newly loaded phase less one second, so no tick shows the loaded count (a reset or mode selection does render it) |
| Timer.TogglePlay | script.js:319-322 | the space bar flips `isRunning` and changes nothing else |
| Timer.Step | script.js:58-67 | the event dispatch: a fired interval leaves a stopped timer alone and decrements a running one above its last second; pomodoro selection enters pomodoro mode with a full work count, keeping `isBreak` as written and clearing it when corrected; the other events are the transitions above, and the Step and Run lemmas below state what the whole machine keeps |
| Timer.SetWorkTime | script.js:301-306 | a new work length is stored, the break length, two-minute length, mode and sessions are kept; outside a break the timer is stopped and rewound to a full phase with `isBreak` still clear; during a break nothing else changes |
| Timer.SetBreakTime | script.js:308-313 | a new break length is stored, the work length, two-minute length, mode and sessions are kept; during a break the timer is stopped and rewound: in pomodoro mode that ends the break and loads a full work phase, in two-minute mode the break flag stays and a full run is loaded; outside a break nothing else changes |
| Timer.SelectTwoMinute | script.js:173-177 | two-minute mode loads `twoMinuteTime*60`; running state, `isBreak`, sessions and settings are kept |
| Timer.SelectPomodoro | script.js:165-171 | as written: pomodoro mode loads `workTime*60` and keeps `isBreak` and everything else |
| Timer.SelectPomodoroBreaksPhaseBound | script.js:165-171 | the break state reached at the end of the first work phase, taken through two-minute mode and back, holds a 1500-second count while flagged as a 300-second break |
| Timer.SelectPomodoroFixed | script.js:165-171 | corrected pomodoro selection: loads a full work phase and clears `isBreak`, so the count equals the phase length |
| Timer.StepKeepsLive | script.js:86-177 | in the program as written and in the corrected one, with positive durations entered, every event keeps the durations positive and `timeLeft > 0` |
| Timer.RunKeepsLive | script.js:86-177 | the same for any sequence of events, in either program |
| Timer.StepKeepsWithinPhase | script.js:86-177 | in the corrected program, with positive durations, every event keeps `0 < timeLeft <= ` the current phase's length |
| Timer.StepSessions | script.js:120-139 | in either program each event leaves sessions alone or adds one, and it adds one only on an interval firing that ends a break or a two-minute run |
| Timer.RunKeepsWithinPhase | script.js:86-177 | in the corrected program any sequence of events with positive durations keeps the count inside the current phase |
| Timer.RunSessionsMonotone | script.js:120-139 | in either program sessions never decrease and grow by at most one per event |
| Timer.ReachableTimeLeftPositive | script.js:109-118 | from the initial timer, whatever positive durations are entered, `timeLeft` stays positive and sessions do not outnumber the events, for the program as written as for the corrected one |
| Timer.ProgramsDisagreeOnPomodoro | script.js:165-171 | from the last second of a work phase through the two-minute rule, selecting pomodoro leaves the phase bound as written and keeps it corrected |
| Fullscreen.CountdownStart | script.js:226-227 | the countdown starts at `minutes*60`, non-negative for non-negative minutes |
| Fullscreen.FireCountdown | script.js:230-238 | a firing stops exactly when the count is at or below zero, and otherwise shows the count less one, which is non-negative |
| Fullscreen.CountdownRuns | script.js:230-238 | a countdown from `n` seconds shows `n-k` after `k <= n` firings and reports time up on firing `n+1` |
| Fullscreen.CountdownNeverNegative | script.js:230-238 | a countdown started at zero or above stays between zero and its start |
| Fullscreen.CountdownDisplayReadsBack | script.js:237-238 | each count the countdown shows renders as an `HH:MM:SS` text that reads back as that count |
| Fullscreen.FireStopwatch | script.js:246-249 | one firing of the stopwatch interval moves the counter up by one second and shows an `HH:MM:SS` text that reads back as the new count |
| Fullscreen.StopwatchShows | script.js:242-249 | the `k`-th firing from the start shows a text that reads back as `k` seconds |
| Fullscreen.StopwatchAfter | script.js:242-250 | after `k` firings the stopwatch counter is exactly `k` |
| TextTrim.Trim | scripts/todo.js:108-109 | `trim` returns the middle of the string with only white space and line terminators removed on either side, neither end of the result is white space, and it is empty exactly when the input is all white space |
| TextTrim.TrimUnique | scripts/todo.js:108-109 | any split of a string into white space, a non-empty middle without white space at its ends, and white space trims to that middle |
| TextTrim.TrimIdempotent | scripts/todo.js:108-109 | trimming twice is trimming once |
| TodoList.FindIndex | scripts/todo.js:195 | `find` stops at the first record with the id, or finds none exactly when no record has it |
| TodoList.Find | scripts/todo.js:236 | `find` returns a record exactly when the id is stored, and then the record at the first position carrying the id |
| TodoList.FindUnique | scripts/todo.js:195 | with unique ids, the record found for a stored record's id is that record |
| TodoList.AddTodo | scripts/todo.js:107-121 | a title that trims to empty leaves the list unchanged; otherwise exactly one uncompleted record with the given id, the trimmed (non-empty) title and the trimmed description is put in front of the unchanged old list |
| TodoList.ToggleComplete | scripts/todo.js:194-202 | `completed` flips on the first record with the id and on no other; every other field and every other record, order included, is unchanged; nothing changes when the id is absent |
| TodoList.ToggleTwice | scripts/todo.js:194-202 | toggling the same id twice restores the original list |
| TodoList.DeleteTodo | scripts/todo.js:210 | no record with the id remains and the list does not grow |
| TodoList.DeleteAbsent | scripts/todo.js:210 | deleting an id no record carries changes nothing |
| TodoList.DeleteKeepsOthers | scripts/todo.js:210 | every record without the id survives the filter |
| TodoList.DeleteSubMultiset | scripts/todo.js:210 | the surviving records are among the old ones, with no more copies than before |
| TodoList.DeleteSplits | scripts/todo.js:210 | the filter acts on each part of a list separately, so the survivors keep their relative order |
| TodoList.DeleteUnique | scripts/todo.js:210 | with unique ids, deleting the id at index `k` removes exactly that record and keeps the rest in order |
| TodoList.UpdateOrder | scripts/todo.js:232-241 | one entry per page element in page order; an entry is undefined exactly when no record has the element's id, otherwise it is the first stored record with that id |
| TodoList.UpdateOrderOfRearrangement | scripts/todo.js:232-241 | with unique ids, rebuilding from the ids of any rearrangement of the records yields exactly that rearrangement |
| TodoList.UpdateOrderPermutes | scripts/todo.js:232-241 | with unique ids, when the page shows a permutation of the stored ids, no entry is undefined and the result is a permutation of the stored records |
| TodoList.UpdateOrderDuplicatesFirst | scripts/todo.js:114 | two records sharing a clock-derived id are not permuted: the first is found for both elements and the second is lost |
| TodoList.MoveUp | scripts/todo.js:286-293 | the element changes places with its previous sibling and nothing else moves; the first element stays put |
| TodoList.MoveDown | scripts/todo.js:295-302 | the element changes places with its next sibling and nothing else moves; the last element stays put |
| TodoList.MoveUpThenDown | scripts/todo.js:286-302 | moving an element up and then down again restores the order |
| TodoList.MoveDownThenUp | scripts/todo.js:286-302 | moving an element down and then up again restores the order |
| TodoList.CountLabel | scripts/todo.js:253-254 | the counter is the numeral of the count, which reads back as the count, then " task", then one "s" when the count is not 1 and nothing more (exactly "1 task" for one) |
| TodoList.EmptyState | scripts/todo.js:243-255 | the empty-state message is shown exactly when there are no tasks, the list exactly otherwise, and the counter labels the task count |
| Drag.ClosestAmong | scripts/todo.js:220-229 | the `reduce` over the first `n` elements picks none exactly when no midpoint there is below the cursor, and otherwise the element with the greatest negative offset, the earliest one on ties |
| Drag.DragAfter | scripts/todo.js:217-230 | `getDragAfterElement` returns none exactly when no element's midpoint is below the cursor, and otherwise the element whose negative offset is greatest, the earliest on ties |
| Drag.DragAfterFirstBelow | scripts/todo.js:217-229 | in a list whose midpoints go down the page in order, the chosen element is the first one whose midpoint is below the cursor |
| Drag.DragOver | scripts/todo.js:43-52 | the dragged element is moved before the chosen element or to the end; the other elements keep their relative order and the page holds the same elements |
| Organizer.Empty | scripts/todo.js:2-13 | a fresh organizer with nothing saved is consistent and shows the empty state |
| Organizer.Add | scripts/todo.js:107-129 | the record goes in front of the list and its element in front of the page; a blank title changes nothing; a fresh id keeps the organizer consistent |
| Organizer.AddThenDelete | scripts/todo.js:107-215 | deleting a task just added under a fresh id gives back the organizer |
| Organizer.Toggle | scripts/todo.js:194-202 | toggling leaves the page order alone and keeps the organizer consistent |
| Organizer.FirstIndex | scripts/todo.js:205 | `querySelector` finds the first element carrying the id |
| Organizer.RemoveFirst | scripts/todo.js:205-209 | the element removed is the first one carrying the id, as `querySelector` finds it, and the others keep their order |
| Organizer.Delete | scripts/todo.js:204-215 | nothing happens unless the page shows the id; then its element goes and every record with the id is filtered out; a consistent organizer stays consistent and loses exactly one record |
| Organizer.DeleteConsistent | scripts/todo.js:204-215 | on a consistent organizer the record and the element removed are at the same position and consistency is kept |
| Organizer.Resync | scripts/todo.js:232-241 | rebuilding the order succeeds exactly when every element's id has a record; the records then carry the page's ids in page order, and each is the first stored record with its element's id, as `find` returns it |
| Organizer.ResyncConsistent | scripts/todo.js:232-241 | rebuilding the order of a consistent organizer changes nothing |
| Organizer.ResyncRearranged | scripts/todo.js:232-241 | rebuilding from a page that shows a rearrangement of the records yields that rearrangement, which is consistent (distinct ids stay distinct under rearrangement, `TodoList.DistinctPermutation`) |
| Organizer.KeyUp | scripts/todo.js:286-293 | ArrowUp on the first element changes nothing |
| Organizer.KeyDown | scripts/todo.js:295-302 | ArrowDown on the last element changes nothing |
| Organizer.KeyUpConsistent | scripts/todo.js:286-293 | on a consistent organizer ArrowUp exchanges the records exactly as it exchanges the elements and keeps consistency (an exchange keeps the multiset, `TodoList.SwapPermutes`) |
| Organizer.KeyDownConsistent | scripts/todo.js:295-302 | on a consistent organizer ArrowDown exchanges the records exactly as it exchanges the elements and keeps consistency |
| Organizer.KeyUpThenDown | scripts/todo.js:286-302 | ArrowUp and then ArrowDown on the same element give back the organizer |
| Organizer.Drop | scripts/todo.js:43-52 | a `dragover` placement followed by `updateTodoOrder` on `dragend` (lines 151-155): the page is the placed order, which holds the same elements, and the rebuild succeeds exactly when every element's id is stored; `Organizer.DropConsistent` states the result on a consistent page |
| Organizer.DropConsistent | scripts/todo.js:43-52 | on a consistent organizer a drop followed by `updateTodoOrder` on `dragend` moves the dragged record to where its element landed, keeps the others in order, keeps consistency and the multiset of records |

## Left out

- DOM access, templates, CSS classes, focus, the help modal and event-listener wiring: they are presentation; the model keeps only the state they read and write.
- `setInterval`, `setTimeout` and `animationend`: scheduling. A tick, a fullscreen firing and a completed delete animation are explicit function calls; `Timer.Step` delivers interval firings only while the timer runs.
- The interval handle `this.timer` that the main timer and the fullscreen countdown and stopwatch share: starting a fullscreen timer clears the main timer's interval without clearing `isRunning`, and a reset clears a fullscreen interval. Interval ownership is not modelled.
- Display refreshes other than the one in `tick` (`reset` and the mode selections call `updateDisplay` too): they render the new count with `ClockFormat.Face` and add nothing the model states.
- Notifications, `alert`, the history list, the fullscreen API and cursor hiding: side effects with no state of the model.
- `updateProgress`: a floating-point percentage.
- `localStorage` persistence (`saveTodos`, `loadTodos`, the dark-mode flag): foreign storage and JSON serialisation. `loadTodos` renders each record in front of the page, so a reloaded page shows the stored order reversed; `Organizer.Consistent` therefore describes a page built by this session's additions.
- `parseInt` of the duration and countdown fields: durations are natural-number parameters and the countdown takes an integer number of minutes. `NaN` inputs are not modelled.
- `Date.now()` ids and `new Date().toISOString()`: the id and creation time are parameters of `addTodo`. Uniqueness is not assumed; lemmas that need it say so.
- The title and description Enter handlers either move focus or call `addTodo`, which `Organizer.Add` models with its blank-title guard; the N, / and Escape shortcuts only move focus, which is not modelled.
- Organizer.Resync: a rebuilt order that holds undefined entries (an element whose id has no record) is `None`. In the source, a later `filter` in `deleteTodo`, or a `find` that reaches the undefined entry before a match, throws; and `toggleComplete` throws at `todoItem.classList` when a record has no element. The model does not follow the program into those failures. A `find` that simply misses in `toggleComplete` is guarded and modelled (nothing changes), and `deleteTodo` does nothing when `querySelector` finds no element.
- `dragover` fires repeatedly during a drag; `Organizer.Drop` models the placement made by the last one, followed by `dragend`.
- Decimal.DecimalString: JavaScript numbers are IEEE-754 doubles. From 1e21 on `toString` switches to exponent notation, and above 2^53 products such as `workTime * 60` are no longer exact; the model uses unbounded integers, so its renderings and durations are exact at every size, which a number typed into a duration field can exceed.
- TodoList.ToggleComplete: records are values in the model, shared objects in the source. Once `updateTodoOrder` has found the same record for two elements with one id, the list holds that object twice and toggling flips both entries; the model flips only the first.

## Findings

| source | as written | input that shows it | evidently intended | confidence | as-written member | corrected member |
|---|---|---|---|---|---|---|
| script.js:165-171 | `showPomodoroMode` loads a full work phase but keeps `isBreak` | run a pomodoro to the end of its first work phase (break flagged, 300 seconds left), choose the two-minute rule, then choose pomodoro again: 1500 seconds are loaded while the timer is still flagged as a 300-second break, so the progress bar goes negative and the next phase switch counts a session | selecting pomodoro mode starts a work phase, as `reset` does, so `isBreak` is cleared | medium; not executed | Timer.SelectPomodoro, Timer.SelectPomodoroBreaksPhaseBound, Timer.ProgramsDisagreeOnPomodoro | Timer.SelectPomodoroFixed, Timer.StepKeepsWithinPhase |

=== FILE: clock_format.dfy ===
/** The two clock renderings of the timer page: the `MM` and `SS` fields of the main
    display (`updateDisplay`) and the `HH:MM:SS` text of the fullscreen display
    (`updateFullscreenDisplay`). Each comes with a reader that recovers the second
    count, so that the rendering is checked against its inverse. */
module ClockFormat {
  import opened Wrappers
  import opened Decimal

  /** The two text fields of the main display. */
  datatype ClockFace = ClockFace(minutes: string, seconds: string)

  /** `updateDisplay`: minutes are `Math.floor(timeLeft / 60)` (Dafny's `/` floors for a
      positive divisor), seconds are the truncating `timeLeft % 60`; each is padded to two
      characters. For a non-negative count the fields are digit strings that read back as
      a minutes/seconds split of the count, with exactly two digits of seconds. */
  function Face(timeLeft: int): (f: ClockFace)
    ensures timeLeft >= 0 ==>
      && AllDigits(f.minutes) && 2 <= |f.minutes|
      && AllDigits(f.seconds) && |f.seconds| == 2
      && ParseDecimal(f.seconds) < 60
      && ParseDecimal(f.minutes) * 60 + ParseDecimal(f.seconds) == timeLeft
    ensures timeLeft >= 0 ==> ReadFace(f) == Some(timeLeft)
    ensures timeLeft >= 0 ==>
      && (timeLeft < 6000 <==> |f.minutes| == 2)
      && (|f.minutes| > 2 ==> f.minutes[0] != '0')
  {
    var m := timeLeft / 60;
    var s := JsRem(timeLeft, 60);
    if timeLeft >= 0 then
      MinutesSecondsSplit(timeLeft);
      ClockFace(Pad2(m), Pad2(s))
    else
      ClockFace(PadStart2(IntToString(m)), PadStart2(IntToString(s)))
  }

  lemma MinutesSecondsSplit(t: int)
    requires t >= 0
    ensures 0 <= t / 60 && 0 <= JsRem(t, 60) < 60
    ensures (t / 60) * 60 + JsRem(t, 60) == t
  {
  }

  /** Reads a main display back: two digit fields, seconds exactly two digits below 60. */
  function ReadFace(f: ClockFace): Option<int>
  {
    if AllDigits(f.minutes) && AllDigits(f.seconds) && |f.seconds| == 2 && ParseDecimal(f.seconds) < 60
    then Some(ParseDecimal(f.minutes) * 60 + ParseDecimal(f.seconds))
    else None
  }

  /** A negative count is not a minutes/seconds split: one second below zero shows
      "-1" in both fields, which reads as -61 rather than -1. */
  lemma NegativeFace()
    ensures Face(-1) == ClockFace("-1", "-1")
  {
    assert DecimalString(1) == "1";
  }

  /** `updateFullscreenDisplay`: hours, minutes and seconds joined by ':'. Hours are
      `Math.floor(total / 3600)`, minutes `Math.floor((total % 3600) / 60)`, seconds
      `total % 60`, with JavaScript's truncating `%`. For a non-negative count the text
      is three padded fields: the hours are the numeral of `total / 3600` padded to two
      digits (wider from 100 hours on), minutes and seconds exactly two digits. */
  function FullscreenText(total: int): (s: string)
    ensures total >= 0 ==> ReadHms(s) == Some(total)
    ensures total >= 0 ==>
      var p := Split(s, ':');
      && |p| == 3
      && p[0] == Pad2(total / 3600) && |p[1]| == 2 && |p[2]| == 2
      && (total < 360000 <==> |p[0]| == 2)
  {
    var h := total / 3600;
    var m := JsRem(total, 3600) / 60;
    var sec := JsRem(total, 60);
    if total >= 0 then
      HmsArithmetic(total);
      var r := Pad2(h) + ":" + Pad2(m) + ":" + Pad2(sec);
      SplitThree(Pad2(h), Pad2(m), Pad2(sec));
      ReadHmsOfFields(Pad2(h), Pad2(m), Pad2(sec));
      r
    else
      PadStart2(IntToString(h)) + ":" + PadStart2(IntToString(m)) + ":" + PadStart2(IntToString(sec))
  }

  lemma HmsArithmetic(total: int)
    requires total >= 0
    ensures 0 <= (total % 3600) / 60 < 60
    ensures 0 <= total % 60 < 60
    ensures (total / 3600) * 3600 + ((total % 3600) / 60) * 60 + total % 60 == total
  {
    var q := total / 3600;
    var r := total % 3600;
    assert total == q * 3600 + r;
    assert r == (r / 60) * 60 + r % 60;
    assert total == (q * 60 + r / 60) * 60 + r % 60;
    assert total % 60 == r % 60;
  }

  /** Splits a string at every occurrence of `sep` (as `String.prototype.split`). */
  function Split(s: string, sep: char): (parts: seq<string>)
    ensures 1 <= |parts|
  {
    if |s| == 0 then [""]
    else if s[0] == sep then [""] + Split(s[1..], sep)
    else
      var rest := Split(s[1..], sep);
      [[s[0]] + rest[0]] + rest[1..]
  }

  lemma {:induction false} SplitNoSep(a: string, sep: char)
    requires sep !in a
    ensures Split(a, sep) == [a]
  {
    if |a| > 0 {
      SplitNoSep(a[1..], sep);
      assert [a[0]] + a[1..] == a;
    }
  }

  lemma {:induction false} SplitJoin(a: string, sep: char, b: string)
    requires sep !in a
    ensures Split(a + [sep] + b, sep) == [a] + Split(b, sep)
  {
    if |a| == 0 {
      assert a + [sep] + b == [sep] + b;
      assert ([sep] + b)[1..] == b;
    } else {
      SplitJoin(a[1..], sep, b);
      assert (a + [sep] + b)[1..] == a[1..] + [sep] + b;
      assert [a[0]] + a[1..] == a;
    }
  }

  /** Reads a fullscreen display back: three digit fields separated by ':', minutes and
      seconds exactly two digits below 60. */
  function ReadHms(s: string): Option<int>
  {
    ReadFields(Split(s, ':'))
  }

  function ReadFields(p: seq<string>): Option<int>
  {
    if |p| == 3 && AllDigits(p[0]) && AllDigits(p[1]) && AllDigits(p[2])
       && |p[1]| == 2 && |p[2]| == 2 && ParseDecimal(p[1]) < 60 && ParseDecimal(p[2]) < 60
    then Some(ParseDecimal(p[0]) * 3600 + ParseDecimal(p[1]) * 60 + ParseDecimal(p[2]))
    else None
  }

  lemma ReadHmsOfFields(h: string, m: string, s: string)
    requires AllDigits(h) && AllDigits(m) && AllDigits(s)
    requires |m| == 2 && |s| == 2 && ParseDecimal(m) < 60 && ParseDecimal(s) < 60
    ensures ReadHms(h + ":" + m + ":" + s)
            == Some(ParseDecimal(h) * 3600 + ParseDecimal(m) * 60 + ParseDecimal(s))
  {
    SplitThree(h, m, s);
    ReadThreeFields(h, m, s);
  }

  lemma ReadThreeFields(h: string, m: string, s: string)
    requires AllDigits(h) && AllDigits(m) && AllDigits(s)
    requires |m| == 2 && |s| == 2 && ParseDecimal(m) < 60 && ParseDecimal(s) < 60
    ensures ReadFields([h, m, s])
            == Some(ParseDecimal(h) * 3600 + ParseDecimal(m) * 60 + ParseDecimal(s))
  {
  }

  lemma SplitThree(h: string, m: string, s: string)
    requires AllDigits(h) && AllDigits(m) && AllDigits(s)
    ensures Split(h + ":" + m + ":" + s, ':') == [h, m, s]
  {
    NoColonInDigits(h);
    NoColonInDigits(m);
    NoColonInDigits(s);
    SplitNoSep(s, ':');
    SplitJoin(m, ':', s);
    var tail := m + [':'] + s;
    assert h + ":" + m + ":" + s == h + [':'] + tail;
    SplitJoin(h, ':', tail);
  }

  lemma NoColonInDigits(s: string)
    requires AllDigits(s)
    ensures ':' !in s
  {
  }
}

=== FILE: decimal.dfy ===
/** Decimal rendering of integers as JavaScript does it (`Number.prototype.toString`,
    `String.prototype.padStart(2, '0')`, truncating `%`), together with a decimal
    parser that serves as the inverse against which the renderings are checked. */
module Decimal {

  predicate IsDigit(c: char) {
    '0' <= c <= '9'
  }

  predicate AllDigits(s: string) {
    forall i :: 0 <= i < |s| ==> IsDigit(s[i])
  }

  function DigitChar(d: nat): (c: char)
    requires d < 10
    ensures IsDigit(c)
    ensures DigitValue(c) == d
  {
    ('0' as int + d) as char
  }

  function DigitValue(c: char): (d: nat)
    requires IsDigit(c)
    ensures d < 10
  {
    c as int - '0' as int
  }

  /** The shortest decimal numeral of `n`, as `n.toString()` produces it for a safe
      integer: no leading zero except for zero itself. */
  function DecimalString(n: nat): (s: string)
    ensures 1 <= |s|
    ensures AllDigits(s)
    ensures n > 0 ==> s[0] != '0'
    ensures n == 0 ==> s == "0"
    ensures n < 10 <==> |s| == 1
    ensures n < 100 ==> |s| <= 2
    decreases n
  {
    if n < 10 then [DigitChar(n)] else DecimalString(n / 10) + [DigitChar(n % 10)]
  }

  /** Reads a string of digits as a number (leading zeros allowed, empty reads as 0). */
  function ParseDecimal(s: string): nat
    requires AllDigits(s)
  {
    if |s| == 0 then 0 else 10 * ParseDecimal(s[..|s| - 1]) + DigitValue(s[|s| - 1])
  }

  lemma {:induction false} ParseDecimalString(n: nat)
    ensures ParseDecimal(DecimalString(n)) == n
    decreases n
  {
    if n >= 10 {
      var s := DecimalString(n / 10);
      ParseDecimalString(n / 10);
      assert (s + [DigitChar(n % 10)])[..|s|] == s;
    }
  }

  lemma {:induction false} ParseLeadingZeros(z: string, s: string)
    requires AllDigits(s)
    requires forall i :: 0 <= i < |z| ==> z[i] == '0'
    ensures AllDigits(z + s)
    ensures ParseDecimal(z + s) == ParseDecimal(s)
    decreases |s|
  {
    if |s| == 0 {
      ParseZeros(z);
      assert z + s == z;
    } else {
      var t := s[..|s| - 1];
      ParseLeadingZeros(z, t);
      assert (z + s)[..|z + s| - 1] == z + t;
    }
  }

  lemma {:induction false} ParseZeros(z: string)
    requires forall i :: 0 <= i < |z| ==> z[i] == '0'
    ensures AllDigits(z)
    ensures ParseDecimal(z) == 0
    decreases |z|
  {
    if |z| > 0 {
      ParseZeros(z[..|z| - 1]);
    }
  }

  /** `s.padStart(2, '0')`: left-pad with '0' up to length two; longer strings are kept. */
  function PadStart2(s: string): (r: string)
    ensures |r| == if |s| >= 2 then |s| else 2
    ensures r[|r| - |s|..] == s
    ensures forall i :: 0 <= i < |r| - |s| ==> r[i] == '0'
  {
    if |s| >= 2 then s else seq(2 - |s|, _ => '0') + s
  }

  /** `String(i)` for an integer `i`: a minus sign before the magnitude when negative. */
  function IntToString(i: int): (s: string)
    ensures i >= 0 ==> s == DecimalString(i)
    ensures i < 0 ==> s == "-" + DecimalString(-i)
  {
    if i < 0 then "-" + DecimalString(-i) else DecimalString(i)
  }

  /** A non-negative number rendered by `String(n).padStart(2, '0')`. */
  function Pad2(n: nat): (s: string)
    ensures AllDigits(s)
    ensures ParseDecimal(s) == n
    ensures 2 <= |s|
    ensures n < 100 <==> |s| == 2
    ensures |s| == if n < 10 then 2 else |DecimalString(n)|
    ensures n >= 10 ==> s == DecimalString(n)
  {
    var d := DecimalString(n);
    var r := PadStart2(d);
    ParseDecimalString(n);
    assert r == r[..|r| - |d|] + d;
    ParseLeadingZeros(r[..|r| - |d|], d);
    r
  }

  /** JavaScript's `a % b` for a positive divisor: the remainder takes the sign of
      the dividend (truncating division), unlike Dafny's Euclidean `%`. */
  function JsRem(a: int, b: int): (r: int)
    requires b > 0
    ensures a >= 0 ==> 0 <= r < b
    ensures a < 0 ==> -b < r <= 0
    ensures a >= 0 ==> r == a % b
    ensures a < 0 ==> (a - r) % b == 0
  {
    if a >= 0 then a % b
    else
      var r := -((-a) % b);
      TruncatedMultiple(-a, b);
      r
  }

  /** Taking off the remainder leaves a multiple of the divisor, also when both are
      negated. */
  lemma TruncatedMultiple(m: nat, b: int)
    requires b > 0
    ensures (-(m - m % b)) % b == 0
  {
    var q := m / b;
    assert m - m % b == b * q;
    assert -(b * q) == b * (-q);
    MultipleMod(b, -q);
  }

  lemma MultipleMod(b: int, q: int)
    requires b > 0
    ensures (b * q) % b == 0
  {
    var a := b * q;
    var d := q - a / b;
    assert a % b == b * d;
  }
}

=== FILE: drag.dfy ===
/** Drag-and-drop placement on the todo list (`getDragAfterElement` and the list's
    `dragover` handler). Positions are whole pixels; the source's offset
    `y - box.top - box.height / 2` is doubled so that it stays an integer, which
    keeps its sign and its order. */
module Drag {
  import opened Wrappers

  /** The bounding box of a list element: top edge and height. */
  datatype Box = Box(top: int, height: int)

  /** Twice the distance from the element's vertical midpoint up to the cursor;
      negative when the midpoint lies below the cursor. */
  function Offset2(b: Box, y: int): int
  {
    2 * (y - b.top) - b.height
  }

  /** The element `k` is the one the drag goes before: its midpoint is below the
      cursor, no other such midpoint is nearer, and no earlier one is as near. */
  predicate IsDropTarget(boxes: seq<Box>, y: int, k: nat)
  {
    && k < |boxes|
    && Offset2(boxes[k], y) < 0
    && (forall j :: 0 <= j < k ==> Offset2(boxes[j], y) >= 0 || Offset2(boxes[j], y) < Offset2(boxes[k], y))
    && (forall j :: k < j < |boxes| ==> Offset2(boxes[j], y) >= 0 || Offset2(boxes[j], y) <= Offset2(boxes[k], y))
  }

  /** The accumulator of the source's `reduce`: the best offset so far (`None` is the
      initial negative infinity) and the element it belongs to. */
  datatype Closest = Closest(offset: Option<int>, element: Option<nat>)

  /** The `reduce` over the first `n` elements, left to right; a later element wins
      only with a strictly greater negative offset. */
  function ClosestAmong(boxes: seq<Box>, y: int, n: nat): (c: Closest)
    requires n <= |boxes|
    ensures c.element.None? <==> forall j :: 0 <= j < n ==> Offset2(boxes[j], y) >= 0
    ensures c.element.None? ==> c.offset.None?
    ensures c.element.Some? ==>
      && c.element.value < n
      && c.offset == Some(Offset2(boxes[c.element.value], y))
      && IsDropTarget(boxes[..n], y, c.element.value)
    decreases n
  {
    if n == 0 then Closest(None, None)
    else
      var c := ClosestAmong(boxes, y, n - 1);
      var off := Offset2(boxes[n - 1], y);
      assert forall j :: 0 <= j < n - 1 ==> boxes[..n][j] == boxes[..n - 1][j];
      if off < 0 && (c.offset.None? || off > c.offset.value) then Closest(Some(off), Some(n - 1))
      else c
  }

  /** `getDragAfterElement`: the element to insert the dragged one before, or none
      (append) when no midpoint lies below the cursor. */
  function DragAfter(boxes: seq<Box>, y: int): (k: Option<nat>)
    ensures k.None? <==> forall j :: 0 <= j < |boxes| ==> Offset2(boxes[j], y) >= 0
    ensures k.Some? ==> IsDropTarget(boxes, y, k.value)
  {
    var c := ClosestAmong(boxes, y, |boxes|);
    assert boxes[..|boxes|] == boxes;
    c.element
  }

  /** The midpoints go down the page in list order, as they do in a rendered list. */
  predicate Laid(boxes: seq<Box>)
  {
    forall i, j :: 0 <= i < j < |boxes| ==>
      2 * boxes[i].top + boxes[i].height < 2 * boxes[j].top + boxes[j].height
  }

  /** In a laid-out list the drag goes before the first element whose midpoint is
      below the cursor. */
  lemma DragAfterFirstBelow(boxes: seq<Box>, y: int, k: nat)
    requires Laid(boxes)
    requires k < |boxes| && Offset2(boxes[k], y) < 0
    requires forall j :: 0 <= j < k ==> Offset2(boxes[j], y) >= 0
    ensures DragAfter(boxes, y) == Some(k)
  {
  }

  /** Where the dragged element lands among the others. */
  function DropIndex(boxes: seq<Box>, y: int): (p: nat)
    ensures p <= |boxes|
  {
    match DragAfter(boxes, y)
    case Some(k) => k
    case None => |boxes|
  }

  /** The list's `dragover` handler with the element at `d` being dragged and `boxes`
      the boxes of the other elements in order: the dragged element is moved before
      the chosen element, or to the end. The others keep their order. */
  function DragOver<T>(view: seq<T>, d: nat, boxes: seq<Box>, y: int): (r: seq<T>)
    requires d < |view| && |boxes| == |view| - 1
    ensures |r| == |view|
    ensures multiset(r) == multiset(view)
    ensures var p := DropIndex(boxes, y);
      r[p] == view[d] && r[..p] + r[p + 1..] == view[..d] + view[d + 1..]
  {
    var others := view[..d] + view[d + 1..];
    var p := DropIndex(boxes, y);
    var r := others[..p] + [view[d]] + others[p..];
    assert r[..p] == others[..p] && r[p + 1..] == others[p..];
    assert others[..p] + others[p..] == others;
    assert view == view[..d] + [view[d]] + view[d + 1..];
    calc {
      multiset(r);
      multiset(others[..p]) + multiset{view[d]} + multiset(others[p..]);
      multiset(others) + multiset{view[d]};
      multiset(view[..d]) + multiset(view[d + 1..]) + multiset{view[d]};
      multiset(view);
    }
    r
  }
}

=== FILE: fullscreen.dfy ===
/** The fullscreen countdown and stopwatch: the bodies of their one-second interval
    callbacks, each acting on a local second counter. */
module Fullscreen {
  import opened Wrappers
  import ClockFormat

  /** What one firing of the countdown interval does: stop at or below zero, or
      decrement and show the new count. */
  datatype CountdownFire = TimesUp | Shown(total: int)

  /** `startCountdown`: the counter starts at the entered minutes times sixty. */
  function CountdownStart(minutes: int): (total: int)
    ensures minutes >= 0 ==> total >= 0
    ensures minutes <= 0 ==> total <= 0
  {
    minutes * 60
  }

  function FireCountdown(total: int): (f: CountdownFire)
    ensures f.TimesUp? <==> total <= 0
    ensures f.Shown? ==> f.total == total - 1 && f.total >= 0
  {
    if total <= 0 then TimesUp else Shown(total - 1)
  }

  /** The counter after `k` firings; once time is up the interval is cleared and the
      counter no longer moves. */
  function CountdownAfter(total: int, k: nat): int
    decreases k
  {
    if k == 0 then total
    else match FireCountdown(total)
      case TimesUp => total
      case Shown(next) => CountdownAfter(next, k - 1)
  }

  /** A countdown from `n` seconds shows n-1, ..., 0 on its first `n` firings and
      reports time up on the next one. */
  lemma {:induction false} CountdownRuns(n: nat, k: nat)
    requires k <= n
    ensures CountdownAfter(n, k) == n - k
    ensures k == n ==> FireCountdown(CountdownAfter(n, k)) == TimesUp
    decreases k
  {
    if k > 0 {
      CountdownRuns(n - 1, k - 1);
    }
  }

  /** A countdown that starts at zero or above never goes below zero. */
  lemma {:induction false} CountdownNeverNegative(total: int, k: nat)
    requires total >= 0
    ensures 0 <= CountdownAfter(total, k) <= total
    decreases k
  {
    if k > 0 && total > 0 {
      CountdownNeverNegative(total - 1, k - 1);
    }
  }

  /** Every count the countdown shows renders as an `HH:MM:SS` text that reads back
      as that count. */
  lemma CountdownDisplayReadsBack(total: int)
    requires FireCountdown(total).Shown?
    ensures ClockFormat.ReadHms(ClockFormat.FullscreenText(FireCountdown(total).total))
            == Some(total - 1)
  {
  }

  /** What one firing of the stopwatch interval does: the incremented counter and the
      `HH:MM:SS` text it shows. */
  datatype StopwatchFire = StopwatchFire(seconds: int, shown: string)

  /** One firing of `startStopwatch`'s interval: increment the counter, then show it. */
  function FireStopwatch(seconds: int): (f: StopwatchFire)
    ensures f.seconds == seconds + 1
    ensures seconds >= 0 ==> f.seconds > 0 && ClockFormat.ReadHms(f.shown) == Some(f.seconds)
  {
    var next := seconds + 1;
    StopwatchFire(next, ClockFormat.FullscreenText(next))
  }

  /** `startStopwatch`: the counter after `k` firings, starting from zero. */
  function StopwatchAfter(k: nat): (seconds: int)
    ensures seconds == k
    decreases k
  {
    if k == 0 then 0 else FireStopwatch(StopwatchAfter(k - 1)).seconds
  }

  /** The `k`-th firing of the stopwatch shows a text that reads back as `k`. */
  lemma StopwatchShows(k: nat)
    requires k >= 1
    ensures ClockFormat.ReadHms(FireStopwatch(StopwatchAfter(k - 1)).shown) == Some(k)
  {
  }
}

=== FILE: organizer.dfy ===
/** `TodoOrganizer` as a whole: the stored list of records together with the page's
    list, modelled as the ids of its elements in page order. Every handler is a
    function from one organizer to the next. */
module Organizer {
  import opened Wrappers
  import opened TextTrim
  import opened TodoList
  import Drag

  datatype Organizer = Organizer(todos: seq<Todo>, view: seq<Id>)

  /** The page shows exactly the stored records, in stored order, and no two records
      share an id. */
  predicate Consistent(o: Organizer)
  {
    o.view == Ids(o.todos) && UniqueIds(o.todos)
  }

  /** A fresh page with nothing saved. */
  function Empty(): (o: Organizer)
    ensures Consistent(o) && EmptyState(o.todos).emptyShown
  {
    Organizer([], [])
  }

  /** `addTodo` followed by `renderTodo`: the record goes in front of the list and its
      element in front of the page. */
  function Add(o: Organizer, title: string, description: string, id: Id, createdAt: string)
    : (r: Organizer)
    ensures r.todos == AddTodo(o.todos, title, description, id, createdAt)
    ensures AllSpace(title) ==> r == o
    ensures !AllSpace(title) ==> r.view == [id] + o.view
    ensures Consistent(o) && id !in o.view ==> Consistent(r)
  {
    if AllSpace(title) then o
    else
      var r := Organizer(AddTodo(o.todos, title, description, id, createdAt), [id] + o.view);
      if Consistent(o) && id !in o.view then
        AddConsistent(o, r.todos, id);
        r
      else r
  }

  lemma AddConsistent(o: Organizer, todos: seq<Todo>, id: Id)
    requires Consistent(o) && id !in o.view
    requires |todos| == |o.todos| + 1 && todos[0].id == id && todos[1..] == o.todos
    ensures Consistent(Organizer(todos, [id] + o.view))
  {
    assert Ids(todos) == [id] + Ids(o.todos);
    assert Distinct([id] + o.view);
  }

  /** `toggleComplete`: only the record changes; the page keeps its order. */
  function Toggle(o: Organizer, id: Id): (r: Organizer)
    ensures r.view == o.view && r.todos == ToggleComplete(o.todos, id)
    ensures Consistent(o) ==> Consistent(r)
  {
    ToggleKeepsIds(o.todos, id);
    Organizer(ToggleComplete(o.todos, id), o.view)
  }

  /** The index of the first element carrying `id` (what `querySelector` finds). */
  function FirstIndex(view: seq<Id>, id: Id): (k: nat)
    requires id in view
    ensures k < |view| && view[k] == id && id !in view[..k]
  {
    if view[0] == id then 0
    else
      var k := FirstIndex(view[1..], id);
      assert view[..k + 1] == [view[0]] + view[1..][..k];
      k + 1
  }

  /** The page with its first element carrying `id` removed. */
  function RemoveFirst(view: seq<Id>, id: Id): (r: seq<Id>)
    requires id in view
    ensures |r| == |view| - 1
    ensures multiset(r) + multiset{id} == multiset(view)
    ensures exists k :: 0 <= k < |view| && view[k] == id && id !in view[..k] && r == view[..k] + view[k + 1..]
  {
    var k := FirstIndex(view, id);
    assert view == view[..k] + [id] + view[k + 1..];
    view[..k] + view[k + 1..]
  }

  /** `deleteTodo`: nothing happens unless the page shows the id; then its element
      goes and every record with the id is filtered out. */
  function Delete(o: Organizer, id: Id): (r: Organizer)
    ensures id !in o.view ==> r == o
    ensures id in o.view ==> r.todos == DeleteTodo(o.todos, id) && r.view == RemoveFirst(o.view, id)
    ensures Consistent(o) ==> Consistent(r)
    ensures Consistent(o) && id in o.view ==> |r.todos| == |o.todos| - 1
  {
    if id !in o.view then o
    else
      var r := Organizer(DeleteTodo(o.todos, id), RemoveFirst(o.view, id));
      if Consistent(o) then
        DeleteConsistent(o, id);
        r
      else r
  }

  /** Deleting a task just added, under a fresh id, gives back the organizer. */
  lemma AddThenDelete(o: Organizer, title: string, description: string, id: Id, createdAt: string)
    requires Consistent(o) && id !in o.view && !AllSpace(title)
    ensures Delete(Add(o, title, description, id, createdAt), id) == o
  {
    var a := Add(o, title, description, id, createdAt);
    assert FirstIndex(a.view, id) == 0;
    assert a.view[..0] + a.view[1..] == o.view;
    DeleteCons(a.todos[0], o.todos, id);
    assert [a.todos[0]] + o.todos == a.todos;
    DeleteAbsent(o.todos, id);
  }

  lemma DeleteConsistent(o: Organizer, id: Id)
    requires Consistent(o) && id in o.view
    ensures var r := Organizer(DeleteTodo(o.todos, id), RemoveFirst(o.view, id));
            Consistent(r) && |r.todos| == |o.todos| - 1
  {
    var view := o.view;
    var k := FirstIndex(view, id);
    assert o.todos[k].id == id;
    DeleteUnique(o.todos, k);
    IdsWithout(o.todos, k);
    DistinctSubsequence(view, k);
  }

  lemma IdsWithout(todos: seq<Todo>, k: nat)
    requires k < |todos|
    ensures Ids(todos[..k] + todos[k + 1..]) == Ids(todos)[..k] + Ids(todos)[k + 1..]
  {
  }

  /** Dropping one entry of a list of distinct ids leaves it distinct. */
  lemma DistinctSubsequence(view: seq<Id>, k: nat)
    requires Distinct(view) && k < |view|
    ensures Distinct(view[..k] + view[k + 1..])
  {
    var r := view[..k] + view[k + 1..];
    forall i, j | 0 <= i < j < |r| ensures r[i] != r[j] {
      var i' := if i < k then i else i + 1;
      var j' := if j < k then j else j + 1;
      assert r[i] == view[i'] && r[j] == view[j'];
    }
  }

  /** The records of a rebuilt order, when none is undefined. */
  function Values(r: seq<Option<Todo>>): (v: seq<Todo>)
    requires forall i :: 0 <= i < |r| ==> r[i].Some?
    ensures |v| == |r|
    ensures forall i :: 0 <= i < |r| ==> r[i] == Some(v[i])
  {
    seq(|r|, i requires 0 <= i < |r| => r[i].value)
  }

  /** `updateTodoOrder` run against the page. An element whose id has no record puts
      undefined into the list. From then on `filter` (in `deleteTodo`) and every `find`
      that reaches the undefined entry before a match throw; a `find` for a record
      placed before it still succeeds. The model does not follow the list into that
      state: the outcome is `None`. */
  function Resync(o: Organizer): (r: Option<Organizer>)
    ensures r.Some? <==> forall i :: 0 <= i < |o.view| ==> o.view[i] in Ids(o.todos)
    ensures r.Some? ==> r.value.view == o.view && Ids(r.value.todos) == o.view
    ensures r.Some? ==> forall i :: 0 <= i < |r.value.todos| ==> r.value.todos[i] in o.todos
    ensures r.Some? ==> forall i :: 0 <= i < |o.view| ==> FirstWithId(o.todos, o.view[i], r.value.todos[i])
  {
    var found := UpdateOrder(o.todos, o.view);
    if forall i :: 0 <= i < |found| ==> found[i].Some? then
      Some(Organizer(Values(found), o.view))
    else None
  }

  /** Re-reading the order of a consistent page changes nothing. */
  lemma ResyncConsistent(o: Organizer)
    requires Consistent(o)
    ensures Resync(o) == Some(o)
  {
    UpdateOrderOfRearrangement(o.todos, o.todos);
    assert Values(Found(o.todos)) == o.todos;
  }

  /** Rebuilding from a page that shows a rearrangement `p` of the records yields `p`. */
  lemma ResyncRearranged(o: Organizer, p: seq<Todo>)
    requires Consistent(o) && multiset(p) == multiset(o.todos)
    ensures Resync(o.(view := Ids(p))) == Some(Organizer(p, Ids(p)))
    ensures Consistent(Organizer(p, Ids(p)))
  {
    UpdateOrderOfRearrangement(o.todos, p);
    assert Values(Found(p)) == p;
    assert multiset(Ids(p)) == multiset(Ids(o.todos)) by {
      IdsMultiset(p, o.todos);
    }
    DistinctPermutation(Ids(o.todos), Ids(p));
  }

  lemma {:induction false} IdsMultiset(a: seq<Todo>, b: seq<Todo>)
    requires multiset(a) == multiset(b)
    ensures multiset(Ids(a)) == multiset(Ids(b))
    decreases |a|
  {
    if |a| == 0 {
      assert |b| == |multiset(b)| == 0;
    } else {
      var x := a[0];
      var p := MatchHead(a, b);
      var b' := b[..p] + b[p + 1..];
      assert b == b[..p] + [x] + b[p + 1..];
      assert a == [x] + a[1..];
      IdsMultiset(a[1..], b');
      IdsConcat([x], a[1..]);
      IdsConcat(b[..p] + [x], b[p + 1..]);
      IdsConcat(b[..p], [x]);
      IdsConcat(b[..p], b[p + 1..]);
    }
  }

  /** The ArrowUp key on the element at `i`: a move on the page, then `updateTodoOrder`
      when the element had a previous sibling. */
  function KeyUp(o: Organizer, i: nat): (r: Option<Organizer>)
    requires i < |o.view|
    ensures i == 0 ==> r == Some(o)
  {
    if i == 0 then Some(o) else Resync(o.(view := MoveUp(o.view, i)))
  }

  /** The ArrowDown key on the element at `i`. */
  function KeyDown(o: Organizer, i: nat): (r: Option<Organizer>)
    requires i < |o.view|
    ensures i + 1 == |o.view| ==> r == Some(o)
  {
    if i + 1 < |o.view| then Resync(o.(view := MoveDown(o.view, i))) else Some(o)
  }

  lemma IdsConcat(a: seq<Todo>, b: seq<Todo>)
    ensures Ids(a + b) == Ids(a) + Ids(b)
  {
  }

  lemma IdsSwap(todos: seq<Todo>, i: nat, j: nat)
    requires i < |todos| && j < |todos|
    ensures Ids(Swap(todos, i, j)) == Swap(Ids(todos), i, j)
  {
  }

  /** On a consistent page a key move exchanges the records just as it exchanges the
      elements, and the page stays consistent. */
  lemma KeyUpConsistent(o: Organizer, i: nat)
    requires Consistent(o) && i < |o.view|
    ensures KeyUp(o, i) == Some(Organizer(MoveUp(o.todos, i), MoveUp(o.view, i)))
    ensures Consistent(KeyUp(o, i).value)
  {
    if i > 0 {
      IdsSwap(o.todos, i - 1, i);
      SwapPermutes(o.todos, i - 1, i);
      ResyncRearranged(o, Swap(o.todos, i - 1, i));
    }
  }

  lemma KeyDownConsistent(o: Organizer, i: nat)
    requires Consistent(o) && i < |o.view|
    ensures KeyDown(o, i) == Some(Organizer(MoveDown(o.todos, i), MoveDown(o.view, i)))
    ensures Consistent(KeyDown(o, i).value)
  {
    if i + 1 < |o.view| {
      IdsSwap(o.todos, i, i + 1);
      SwapPermutes(o.todos, i, i + 1);
      ResyncRearranged(o, Swap(o.todos, i, i + 1));
    }
  }

  /** ArrowUp and then ArrowDown on the same element gives back the organizer. */
  lemma KeyUpThenDown(o: Organizer, i: nat)
    requires Consistent(o) && 0 < i < |o.view|
    ensures KeyUp(o, i).Some?
    ensures KeyDown(KeyUp(o, i).value, i - 1) == Some(o)
  {
    KeyUpConsistent(o, i);
    KeyDownRestores(o, i, KeyUp(o, i).value);
  }

  lemma KeyDownRestores(o: Organizer, i: nat, u: Organizer)
    requires 0 < i < |o.view| && |o.todos| == |o.view|
    requires u == Organizer(MoveUp(o.todos, i), MoveUp(o.view, i)) && Consistent(u)
    ensures KeyDown(u, i - 1) == Some(o)
  {
    KeyDownConsistent(u, i - 1);
    MoveUpThenDown(o.todos, i);
    MoveUpThenDown(o.view, i);
  }

  lemma IdsDragOver(todos: seq<Todo>, d: nat, boxes: seq<Drag.Box>, y: int)
    requires d < |todos| && |boxes| == |todos| - 1
    ensures Ids(Drag.DragOver(todos, d, boxes, y)) == Drag.DragOver(Ids(todos), d, boxes, y)
  {
    var r := Drag.DragOver(todos, d, boxes, y);
    var s := Drag.DragOver(Ids(todos), d, boxes, y);
    forall m | 0 <= m < |r| ensures r[m].id == s[m] {
      IdsDragOverAt(todos, d, boxes, y, m);
    }
  }

  lemma IdsDragOverAt(todos: seq<Todo>, d: nat, boxes: seq<Drag.Box>, y: int, m: nat)
    requires d < |todos| && |boxes| == |todos| - 1 && m < |todos|
    ensures Drag.DragOver(todos, d, boxes, y)[m].id == Drag.DragOver(Ids(todos), d, boxes, y)[m]
  {
    var r := Drag.DragOver(todos, d, boxes, y);
    var s := Drag.DragOver(Ids(todos), d, boxes, y);
    var p := Drag.DropIndex(boxes, y);
    var others := todos[..d] + todos[d + 1..];
    IdsWithout(todos, d);
    if m < p {
      assert r[m] == (r[..p] + r[p + 1..])[m] == others[m];
      assert s[m] == (s[..p] + s[p + 1..])[m];
    } else if m > p {
      assert r[m] == (r[..p] + r[p + 1..])[m - 1] == others[m - 1];
      assert s[m] == (s[..p] + s[p + 1..])[m - 1];
    }
  }

  /** A drag of the element at `d` released at cursor height `y`, with `boxes` the
      boxes of the other elements: the last `dragover` placement, then
      `updateTodoOrder` on `dragend`. */
  function Drop(o: Organizer, d: nat, boxes: seq<Drag.Box>, y: int): (r: Option<Organizer>)
    requires d < |o.view| && |boxes| == |o.view| - 1
    ensures r.Some? <==> forall i :: 0 <= i < |o.view| ==> o.view[i] in Ids(o.todos)
    ensures r.Some? ==> r.value.view == Drag.DragOver(o.view, d, boxes, y)
    ensures r.Some? ==> multiset(r.value.view) == multiset(o.view)
  {
    var v := Drag.DragOver(o.view, d, boxes, y);
    AllStoredRearranged(o.view, v, Ids(o.todos));
    Resync(o.(view := v))
  }

  /** Whether every id of a page is stored does not depend on the page's order. */
  lemma AllStoredRearranged(a: seq<Id>, b: seq<Id>, stored: seq<Id>)
    requires multiset(a) == multiset(b)
    ensures (forall i :: 0 <= i < |a| ==> a[i] in stored) <==> (forall i :: 0 <= i < |b| ==> b[i] in stored)
  {
    if forall i :: 0 <= i < |a| ==> a[i] in stored {
      forall j | 0 <= j < |b| ensures b[j] in stored {
        assert b[j] in multiset(a);
      }
    }
    if forall i :: 0 <= i < |b| ==> b[i] in stored {
      forall j | 0 <= j < |a| ensures a[j] in stored {
        assert a[j] in multiset(b);
      }
    }
  }

  /** On a consistent page a drop moves the dragged record to where its element
      landed, keeps the other records in order, and leaves the page consistent. */
  lemma DropConsistent(o: Organizer, d: nat, boxes: seq<Drag.Box>, y: int)
    requires Consistent(o) && d < |o.view| && |boxes| == |o.view| - 1
    ensures Drop(o, d, boxes, y)
            == Some(Organizer(Drag.DragOver(o.todos, d, boxes, y), Drag.DragOver(o.view, d, boxes, y)))
    ensures Consistent(Drop(o, d, boxes, y).value)
    ensures multiset(Drop(o, d, boxes, y).value.todos) == multiset(o.todos)
  {
    IdsDragOver(o.todos, d, boxes, y);
    ResyncRearranged(o, Drag.DragOver(o.todos, d, boxes, y));
  }
}

=== FILE: timer.dfy ===
/** The `ProductivityTimer` state machine of the timer page: a pomodoro cycle of
    work and break phases, or a repeating two-minute countdown. A tick of the
    one-second interval is an explicit transition. Durations are whole minutes. */
module Timer {
  import opened Wrappers
  import opened ClockFormat
  import Decimal

  datatype Timer = Timer(
    workTime: nat,          // minutes of a work phase
    breakTime: nat,         // minutes of a break phase
    twoMinuteTime: nat,     // minutes of a two-minute-rule run
    timeLeft: int,          // seconds left in the current phase
    isRunning: bool,
    isBreak: bool,
    sessions: nat,
    isPomodoroMode: bool)

  /** Seconds in the phase the timer is currently counting down. */
  function PhaseSeconds(t: Timer): nat
  {
    if t.isPomodoroMode then (if t.isBreak then t.breakTime else t.workTime) * 60
    else t.twoMinuteTime * 60
  }

  predicate PositiveDurations(t: Timer)
  {
    t.workTime > 0 && t.breakTime > 0 && t.twoMinuteTime > 0
  }

  /** The phase counter is strictly inside the current phase's length. */
  predicate WithinPhase(t: Timer)
  {
    PositiveDurations(t) && 0 < t.timeLeft <= PhaseSeconds(t)
  }

  /** Same settings and counters, whatever the clock and flags say. */
  predicate SameSettings(t: Timer, u: Timer)
  {
    t.workTime == u.workTime && t.breakTime == u.breakTime && t.twoMinuteTime == u.twoMinuteTime
  }

  /** The constructor's state: 25-minute work, 5-minute break, two-minute rule of 2,
      stopped at the start of a work phase with no sessions. */
  function Init(): (t: Timer)
    ensures WithinPhase(t) && !t.isRunning && !t.isBreak && t.sessions == 0
    ensures t.isPomodoroMode && t.timeLeft == PhaseSeconds(t) == 1500
  {
    Timer(25, 5, 2, 25 * 60, false, false, 0, true)
  }

  /** `start`: sets the timer running; a running timer is left exactly as it is. */
  function Start(t: Timer): (r: Timer)
    ensures r.isRunning
    ensures t.isRunning ==> r == t
    ensures r.(isRunning := t.isRunning) == t
  {
    if !t.isRunning then t.(isRunning := true) else t
  }

  /** `pause`: stops the timer; nothing else changes. */
  function Pause(t: Timer): (r: Timer)
    ensures !r.isRunning
    ensures r.(isRunning := t.isRunning) == t
  {
    t.(isRunning := false)
  }

  /** Pausing a timer that was just started from rest gives back the stopped timer. */
  lemma PauseUndoesStart(t: Timer)
    requires !t.isRunning
    ensures Pause(Start(t)) == t
  {
  }

  /** `reset`: stops the timer and rewinds the phase. Pomodoro mode goes back to the
      start of a work phase; two-minute mode restarts its run and keeps `isBreak`. */
  function Reset(t: Timer): (r: Timer)
    ensures !r.isRunning
    ensures SameSettings(t, r) && r.sessions == t.sessions && r.isPomodoroMode == t.isPomodoroMode
    ensures t.isPomodoroMode ==> !r.isBreak && r.timeLeft == t.workTime * 60
    ensures !t.isPomodoroMode ==> r.isBreak == t.isBreak && r.timeLeft == t.twoMinuteTime * 60
    ensures r.timeLeft == PhaseSeconds(r)
  {
    var p := Pause(t);
    if p.isPomodoroMode then p.(timeLeft := p.workTime * 60, isBreak := false)
    else p.(timeLeft := p.twoMinuteTime * 60)
  }

  /** `switchMode`, called when a phase runs out. In pomodoro mode it flips between
      work and break; a session is counted only when a break ends. In two-minute mode
      every run counts a session, the run restarts and the timer stops. */
  function SwitchMode(t: Timer): (r: Timer)
    ensures SameSettings(t, r) && r.isPomodoroMode == t.isPomodoroMode
    ensures r.timeLeft == PhaseSeconds(r)
    ensures t.isPomodoroMode ==> r.isBreak == !t.isBreak && r.isRunning == t.isRunning
    ensures t.isPomodoroMode && r.isBreak ==> r.sessions == t.sessions
    ensures t.isPomodoroMode && !r.isBreak ==> r.sessions == t.sessions + 1
    ensures !t.isPomodoroMode ==>
      r.sessions == t.sessions + 1 && !r.isRunning && r.isBreak == t.isBreak
  {
    if t.isPomodoroMode then
      var b := !t.isBreak;
      if b then t.(isBreak := b, timeLeft := t.breakTime * 60)
      else t.(isBreak := b, timeLeft := t.workTime * 60, sessions := t.sessions + 1)
    else
      Pause(t.(timeLeft := t.twoMinuteTime * 60, sessions := t.sessions + 1))
  }

  /** `tick`: one second passes; when the phase has run out, `switchMode` starts the next. */
  function Tick(t: Timer): (r: Timer)
    ensures SameSettings(t, r) && r.isPomodoroMode == t.isPomodoroMode
    ensures t.timeLeft > 1 ==> r == t.(timeLeft := t.timeLeft - 1)
    ensures t.timeLeft <= 1 ==> r.timeLeft == PhaseSeconds(r)
    ensures PositiveDurations(t) ==> r.timeLeft > 0
    ensures r.sessions == t.sessions || r.sessions == t.sessions + 1
    ensures r.sessions == t.sessions + 1 <==> t.timeLeft <= 1 && (t.isBreak || !t.isPomodoroMode)
    ensures t.timeLeft <= 1 && t.isPomodoroMode ==> r.isBreak == !t.isBreak && r.isRunning == t.isRunning
    ensures t.timeLeft <= 1 && !t.isPomodoroMode ==> r.isBreak == t.isBreak && !r.isRunning
  {
    var u := t.(timeLeft := t.timeLeft - 1);
    if u.timeLeft <= 0 then SwitchMode(u) else u
  }

  /** What the main display shows right after a tick: `updateDisplay` runs on the
      decremented count, before any phase switch. */
  function TickShows(t: Timer): (f: ClockFace)
    ensures t.timeLeft > 0 ==> ReadFace(f) == Some(t.timeLeft - 1)
    ensures t.timeLeft > 0 ==> |f.seconds| == 2 && 2 <= |f.minutes|
    ensures f == Face(t.timeLeft - 1)
  {
    Face(t.timeLeft - 1)
  }

  /** At the end of a phase the display shows 00:00, and no tick shows the count the
      switch loads: the next tick decrements before it renders. */
  lemma PhaseEndDisplay(t: Timer)
    requires WithinPhase(t) && t.timeLeft == 1
    ensures TickShows(t) == ClockFace("00", "00")
    ensures ReadFace(TickShows(Tick(t))) == Some(PhaseSeconds(Tick(t)) - 1)
  {
    assert Decimal.DecimalString(0) == "0";
  }

  /** The space-bar shortcut: pause when running, start otherwise. */
  function TogglePlay(t: Timer): (r: Timer)
    ensures r.isRunning == !t.isRunning
    ensures r.(isRunning := t.isRunning) == t
  {
    if t.isRunning then Pause(t) else Start(t)
  }

  /** `updateWorkTime` with the parsed field value: a new work length rewinds the
      timer unless a break is under way. */
  function SetWorkTime(t: Timer, minutes: nat): (r: Timer)
    ensures r.workTime == minutes && r.breakTime == t.breakTime && r.sessions == t.sessions
    ensures t.isBreak ==> r == t.(workTime := minutes)
    ensures r.twoMinuteTime == t.twoMinuteTime && r.isPomodoroMode == t.isPomodoroMode
    ensures !t.isBreak ==> !r.isRunning && !r.isBreak && r.timeLeft == PhaseSeconds(r)
  {
    var u := t.(workTime := minutes);
    if !u.isBreak then Reset(u) else u
  }

  /** `updateBreakTime` with the parsed field value: a new break length rewinds the
      timer when a break is under way, which ends the break (`reset` clears `isBreak`
      in pomodoro mode). */
  function SetBreakTime(t: Timer, minutes: nat): (r: Timer)
    ensures r.breakTime == minutes && r.workTime == t.workTime && r.sessions == t.sessions
    ensures !t.isBreak ==> r == t.(breakTime := minutes)
    ensures t.isBreak ==> !r.isRunning && r.timeLeft == PhaseSeconds(r)
    ensures r.twoMinuteTime == t.twoMinuteTime && r.isPomodoroMode == t.isPomodoroMode
    ensures t.isBreak && t.isPomodoroMode ==> !r.isBreak && r.timeLeft == t.workTime * 60
    ensures t.isBreak && !t.isPomodoroMode ==> r.isBreak && r.timeLeft == t.twoMinuteTime * 60
  {
    var u := t.(breakTime := minutes);
    if u.isBreak then Reset(u) else u
  }

  /** `showTwoMinuteMode`: switches to the two-minute rule and restarts its run,
      without stopping the interval. */
  function SelectTwoMinute(t: Timer): (r: Timer)
    ensures !r.isPomodoroMode && r.timeLeft == PhaseSeconds(r)
    ensures r.(isPomodoroMode := t.isPomodoroMode, timeLeft := t.timeLeft) == t
  {
    t.(isPomodoroMode := false, timeLeft := t.twoMinuteTime * 60)
  }

  /** `showPomodoroMode` as written: switches to pomodoro mode and loads a full work
      phase, but keeps `isBreak` as it was. */
  function SelectPomodoro(t: Timer): (r: Timer)
    ensures r.isPomodoroMode && r.timeLeft == t.workTime * 60
    ensures r.(isPomodoroMode := t.isPomodoroMode, timeLeft := t.timeLeft) == t
  {
    t.(isPomodoroMode := true, timeLeft := t.workTime * 60)
  }

  /** A break that ended in two-minute mode is still flagged when pomodoro mode is
      selected again: the counter holds a 25-minute work phase while the timer believes
      it is in a 5-minute break, so the next phase switch counts a session. */
  lemma SelectPomodoroBreaksPhaseBound()
    ensures var t := Timer(25, 5, 2, 300, true, true, 0, true);
      && t == Tick(Timer(25, 5, 2, 1, true, false, 0, true))
      && WithinPhase(t)
      && WithinPhase(SelectTwoMinute(t))
      && !WithinPhase(SelectPomodoro(SelectTwoMinute(t)))
  {
  }

  /** `showPomodoroMode` as evidently intended: entering pomodoro mode starts a work
      phase, as `reset` does, so the flag agrees with the loaded count. */
  function SelectPomodoroFixed(t: Timer): (r: Timer)
    ensures r.isPomodoroMode && !r.isBreak && r.timeLeft == t.workTime * 60
    ensures r.timeLeft == PhaseSeconds(r)
    ensures r.(isPomodoroMode := t.isPomodoroMode, timeLeft := t.timeLeft, isBreak := t.isBreak) == t
  {
    t.(isPomodoroMode := true, timeLeft := t.workTime * 60, isBreak := false)
  }

  /** The user and interval events that drive the timer. */
  datatype Event =
    | StartClicked
    | PauseClicked
    | ResetClicked
    | SpaceKey
    | IntervalFired
    | WorkTimeChanged(workMinutes: nat)
    | BreakTimeChanged(breakMinutes: nat)
    | PomodoroSelected
    | TwoMinuteSelected

  /** Which pomodoro selection the machine uses: `showPomodoroMode` as written, or the
      corrected one that also clears `isBreak`. Every other transition is shared. */
  datatype Program = AsWritten | Corrected

  /** One event. The interval only exists while the timer runs, so a fired interval
      implies a running timer. */
  function Step(p: Program, t: Timer, e: Event): (r: Timer)
    ensures e == IntervalFired && !t.isRunning ==> r == t
    ensures e == IntervalFired && t.isRunning && t.timeLeft > 1 ==> r == t.(timeLeft := t.timeLeft - 1)
    ensures e == PomodoroSelected ==> r.isPomodoroMode && r.timeLeft == t.workTime * 60
    ensures e == PomodoroSelected && p == AsWritten ==> r.isBreak == t.isBreak
    ensures e == PomodoroSelected && p == Corrected ==> !r.isBreak
  {
    match e
    case StartClicked => Start(t)
    case PauseClicked => Pause(t)
    case ResetClicked => Reset(t)
    case SpaceKey => TogglePlay(t)
    case IntervalFired => if t.isRunning then Tick(t) else t
    case WorkTimeChanged(m) => SetWorkTime(t, m)
    case BreakTimeChanged(m) => SetBreakTime(t, m)
    case PomodoroSelected => if p == AsWritten then SelectPomodoro(t) else SelectPomodoroFixed(t)
    case TwoMinuteSelected => SelectTwoMinute(t)
  }

  predicate PositiveSettings(e: Event)
  {
    match e
    case WorkTimeChanged(m) => m > 0
    case BreakTimeChanged(m) => m > 0
    case _ => true
  }

  function Run(p: Program, t: Timer, es: seq<Event>): Timer
    decreases |es|
  {
    if |es| == 0 then t else Run(p, Step(p, t, es[0]), es[1..])
  }

  /** Positive durations and a count above zero: what both programs keep. */
  predicate Live(t: Timer)
  {
    PositiveDurations(t) && t.timeLeft > 0
  }

  /** Every event keeps the timer live, in the program as written as in the corrected
      one, provided every duration the user enters is positive. */
  lemma StepKeepsLive(p: Program, t: Timer, e: Event)
    requires Live(t) && PositiveSettings(e)
    ensures Live(Step(p, t, e))
  {
  }

  /** In the corrected program every event also keeps the count inside the current
      phase. */
  lemma StepKeepsWithinPhase(t: Timer, e: Event)
    requires WithinPhase(t) && PositiveSettings(e)
    ensures WithinPhase(Step(Corrected, t, e))
  {
  }

  /** Sessions never decrease, and grow by at most one per event: only when a
      pomodoro break ends or a two-minute run completes. */
  lemma StepSessions(p: Program, t: Timer, e: Event)
    ensures Step(p, t, e).sessions == t.sessions || Step(p, t, e).sessions == t.sessions + 1
    ensures Step(p, t, e).sessions == t.sessions + 1 ==>
      e == IntervalFired && t.isRunning && t.timeLeft <= 1 && (t.isBreak || !t.isPomodoroMode)
  {
  }

  lemma {:induction false} RunKeepsLive(p: Program, t: Timer, es: seq<Event>)
    requires Live(t)
    requires forall i :: 0 <= i < |es| ==> PositiveSettings(es[i])
    ensures Live(Run(p, t, es))
    decreases |es|
  {
    if |es| > 0 {
      StepKeepsLive(p, t, es[0]);
      RunKeepsLive(p, Step(p, t, es[0]), es[1..]);
    }
  }

  lemma {:induction false} RunKeepsWithinPhase(t: Timer, es: seq<Event>)
    requires WithinPhase(t)
    requires forall i :: 0 <= i < |es| ==> PositiveSettings(es[i])
    ensures WithinPhase(Run(Corrected, t, es))
    decreases |es|
  {
    if |es| > 0 {
      StepKeepsWithinPhase(t, es[0]);
      RunKeepsWithinPhase(Step(Corrected, t, es[0]), es[1..]);
    }
  }

  lemma {:induction false} RunSessionsMonotone(p: Program, t: Timer, es: seq<Event>)
    ensures t.sessions <= Run(p, t, es).sessions <= t.sessions + |es|
    decreases |es|
  {
    if |es| > 0 {
      StepSessions(p, t, es[0]);
      RunSessionsMonotone(p, Step(p, t, es[0]), es[1..]);
    }
  }

  /** From the initial state, whatever positive durations the user enters, the timer
      never counts down to zero or below, as written as well as corrected. */
  lemma ReachableTimeLeftPositive(p: Program, es: seq<Event>)
    requires forall i :: 0 <= i < |es| ==> PositiveSettings(es[i])
    ensures Run(p, Init(), es).timeLeft > 0
    ensures Run(p, Init(), es).sessions <= |es|
  {
    RunKeepsLive(p, Init(), es);
    RunSessionsMonotone(p, Init(), es);
  }

  /** The two programs part on the trace of the finding: at the last second of a
      work phase, then the two-minute rule, pomodoro selection as written leaves the
      phase bound and the corrected one keeps it. */
  lemma ProgramsDisagreeOnPomodoro()
    ensures var u := SelectTwoMinute(Tick(Timer(25, 5, 2, 1, true, false, 0, true)));
      && WithinPhase(u)
      && !WithinPhase(Step(AsWritten, u, PomodoroSelected))
      && WithinPhase(Step(Corrected, u, PomodoroSelected))
  {
  }
}

=== FILE: todo_list.dfy ===
/** The task records of `TodoOrganizer` and the operations on their ordered list:
    adding, completing, deleting, reordering from the page's element order, keyboard
    moves, and the counter label. */
module TodoList {
  import opened Wrappers
  import opened TextTrim
  import Decimal

  /** Ids come from the clock (`Date.now()`), so nothing guarantees they are unique. */
  type Id = int

  datatype Todo = Todo(id: Id, title: string, description: string, completed: bool, createdAt: string)

  function Ids(todos: seq<Todo>): (ids: seq<Id>)
    ensures |ids| == |todos|
    ensures forall i :: 0 <= i < |todos| ==> ids[i] == todos[i].id
  {
    seq(|todos|, i requires 0 <= i < |todos| => todos[i].id)
  }

  predicate Distinct(ids: seq<Id>)
  {
    forall i, j :: 0 <= i < j < |ids| ==> ids[i] != ids[j]
  }

  predicate UniqueIds(todos: seq<Todo>)
  {
    Distinct(Ids(todos))
  }

  /** The index `Array.prototype.find` stops at: the first record carrying `id`. */
  function FindIndex(todos: seq<Todo>, id: Id): (k: Option<nat>)
    ensures k.Some? ==> k.value < |todos| && todos[k.value].id == id
    ensures k.Some? ==> forall j :: 0 <= j < k.value ==> todos[j].id != id
    ensures k.None? <==> id !in Ids(todos)
  {
    if |todos| == 0 then None
    else if todos[0].id == id then Some(0)
    else match FindIndex(todos[1..], id)
      case None =>
        assert Ids(todos) == [todos[0].id] + Ids(todos[1..]);
        None
      case Some(k) => Some(k + 1)
  }

  /** `x` is the record at the first position that carries `id`. */
  predicate FirstWithId(todos: seq<Todo>, id: Id, x: Todo)
  {
    exists k :: 0 <= k < |todos| && todos[k] == x && x.id == id
      && forall j :: 0 <= j < k ==> todos[j].id != id
  }

  /** `todos.find(t => t.id === id)`: the first record with `id`, or undefined. */
  function Find(todos: seq<Todo>, id: Id): (r: Option<Todo>)
    ensures r.Some? <==> id in Ids(todos)
    ensures r.Some? ==> r.value in todos && r.value.id == id
    ensures r.Some? ==> FirstWithId(todos, id, r.value)
  {
    match FindIndex(todos, id)
    case None => None
    case Some(k) => Some(todos[k])
  }

  /** With unique ids, the record found for an id is the one record that carries it. */
  lemma FindUnique(todos: seq<Todo>, k: nat)
    requires UniqueIds(todos) && k < |todos|
    ensures Find(todos, todos[k].id) == Some(todos[k])
  {
    var f := FindIndex(todos, todos[k].id);
    assert f.Some? by {
      assert Ids(todos)[k] == todos[k].id;
    }
    assert Ids(todos)[f.value] == Ids(todos)[k];
  }

  /** `addTodo`: the title and description are trimmed; an empty trimmed title adds
      nothing; otherwise the new, uncompleted record is put in front of the list. */
  function AddTodo(todos: seq<Todo>, title: string, description: string, id: Id, createdAt: string)
    : (r: seq<Todo>)
    ensures AllSpace(title) ==> r == todos
    ensures !AllSpace(title) ==>
      && |r| == |todos| + 1 && r[1..] == todos
      && r[0].id == id && r[0].createdAt == createdAt && !r[0].completed
      && r[0].title == Trim(title) && r[0].description == Trim(description)
      && r[0].title != [] && Trimmed(r[0].title)
  {
    var t := Trim(title);
    if t == [] then todos
    else [Todo(id, t, Trim(description), false, createdAt)] + todos
  }

  /** `toggleComplete`: flips `completed` on the first record with `id` and on no
      other; everything else, order included, stays. */
  function ToggleComplete(todos: seq<Todo>, id: Id): (r: seq<Todo>)
    ensures |r| == |todos|
    ensures forall j :: 0 <= j < |todos| ==> r[j].(completed := todos[j].completed) == todos[j]
    ensures forall j :: 0 <= j < |todos| ==>
      (r[j].completed != todos[j].completed <==>
        todos[j].id == id && forall i :: 0 <= i < j ==> todos[i].id != id)
    ensures id !in Ids(todos) ==> r == todos
  {
    match FindIndex(todos, id)
    case None => todos
    case Some(k) => todos[k := todos[k].(completed := !todos[k].completed)]
  }

  lemma ToggleKeepsIds(todos: seq<Todo>, id: Id)
    ensures Ids(ToggleComplete(todos, id)) == Ids(todos)
  {
  }

  /** Toggling the same id twice gives back the list it started from. */
  lemma ToggleTwice(todos: seq<Todo>, id: Id)
    ensures ToggleComplete(ToggleComplete(todos, id), id) == todos
  {
    var r := ToggleComplete(todos, id);
    var rr := ToggleComplete(r, id);
    assert Ids(r) == Ids(todos);
    forall j | 0 <= j < |todos|
      ensures rr[j] == todos[j]
    {
      assert Ids(r)[j] == Ids(todos)[j];
      assert forall i :: 0 <= i < |todos| ==> r[i].id == todos[i].id by {
        forall i | 0 <= i < |todos| ensures r[i].id == todos[i].id {
          assert Ids(r)[i] == Ids(todos)[i];
        }
      }
    }
  }

  /** `todos.filter(t => t.id !== id)`: no record with `id` is left. */
  function DeleteTodo(todos: seq<Todo>, id: Id): (r: seq<Todo>)
    ensures forall i :: 0 <= i < |r| ==> r[i].id != id
    ensures |r| <= |todos|
  {
    if |todos| == 0 then []
    else
      var rest := DeleteTodo(todos[1..], id);
      if todos[0].id != id then [todos[0]] + rest else rest
  }

  /** Deleting an id no record carries changes nothing. */
  lemma {:induction false} DeleteAbsent(todos: seq<Todo>, id: Id)
    requires id !in Ids(todos)
    ensures DeleteTodo(todos, id) == todos
    decreases |todos|
  {
    if |todos| > 0 {
      assert Ids(todos)[0] == todos[0].id;
      SuffixIds(todos, 1);
      DeleteAbsent(todos[1..], id);
      assert todos == [todos[0]] + todos[1..];
    }
  }

  /** The records left are among the old ones, with no more copies than before. */
  lemma {:induction false} DeleteSubMultiset(todos: seq<Todo>, id: Id)
    ensures multiset(DeleteTodo(todos, id)) <= multiset(todos)
    decreases |todos|
  {
    if |todos| > 0 {
      DeleteSubMultiset(todos[1..], id);
      assert todos == [todos[0]] + todos[1..];
    }
  }

  /** Every record without `id` survives the filter. */
  lemma {:induction false} DeleteKeepsOthers(todos: seq<Todo>, id: Id, x: Todo)
    requires x in todos && x.id != id
    ensures x in DeleteTodo(todos, id)
    decreases |todos|
  {
    if todos[0] != x {
      DeleteKeepsOthers(todos[1..], id, x);
    }
  }

  /** Filtering keeps relative order: it acts on each part of a list separately. */
  lemma {:induction false} DeleteSplits(a: seq<Todo>, b: seq<Todo>, id: Id)
    ensures DeleteTodo(a + b, id) == DeleteTodo(a, id) + DeleteTodo(b, id)
    decreases |a|
  {
    if |a| > 0 {
      DeleteSplits(a[1..], b, id);
      assert a + b == [a[0]] + (a[1..] + b);
      DeleteCons(a[0], a[1..] + b, id);
      DeleteCons(a[0], a[1..], id);
      assert [a[0]] + a[1..] == a;
    } else {
      assert a + b == b;
    }
  }

  lemma DeleteCons(x: Todo, rest: seq<Todo>, id: Id)
    ensures DeleteTodo([x] + rest, id)
            == (if x.id != id then [x] else []) + DeleteTodo(rest, id)
  {
    assert ([x] + rest)[1..] == rest;
  }

  /** With unique ids, deleting an id present at index `k` removes exactly that
      record and closes the gap. */
  lemma DeleteUnique(todos: seq<Todo>, k: nat)
    requires UniqueIds(todos) && k < |todos|
    ensures DeleteTodo(todos, todos[k].id) == todos[..k] + todos[k + 1..]
  {
    UniqueElsewhere(todos, k);
    DeleteOnlyAt(todos[..k], todos[k], todos[k + 1..]);
    assert todos == todos[..k] + [todos[k]] + todos[k + 1..];
  }

  lemma DeleteOnlyAt(pre: seq<Todo>, x: Todo, post: seq<Todo>)
    requires x.id !in Ids(pre) && x.id !in Ids(post)
    ensures DeleteTodo(pre + [x] + post, x.id) == pre + post
  {
    var id := x.id;
    calc {
      DeleteTodo(pre + [x] + post, id);
      { DeleteSplits(pre + [x], post, id); }
      DeleteTodo(pre + [x], id) + DeleteTodo(post, id);
      { DeleteSplits(pre, [x], id); }
      DeleteTodo(pre, id) + DeleteTodo([x], id) + DeleteTodo(post, id);
      { DeleteAbsent(pre, id); DeleteAbsent(post, id); }
      pre + DeleteTodo([x], id) + post;
      { DeleteCons(x, [], id); assert [x] + [] == [x]; }
      pre + [] + post;
    }
  }

  /** With unique ids, the id at index `k` occurs neither before nor after it. */
  lemma UniqueElsewhere(todos: seq<Todo>, k: nat)
    requires UniqueIds(todos) && k < |todos|
    ensures todos[k].id !in Ids(todos[..k])
    ensures todos[k].id !in Ids(todos[k + 1..])
  {
    forall j | 0 <= j < |todos| && j != k
      ensures todos[j].id != todos[k].id
    {
      assert Ids(todos)[j] == todos[j].id;
      assert Ids(todos)[k] == todos[k].id;
    }
    SuffixIds(todos, k + 1);
  }

  lemma SuffixIds(todos: seq<Todo>, k: nat)
    requires k <= |todos|
    ensures Ids(todos[k..]) == Ids(todos)[k..]
  {
  }

  /** `updateTodoOrder`: one entry per page element, in page order, each the record
      `find` returns for the element's id; an id with no record gives undefined. */
  function UpdateOrder(todos: seq<Todo>, ids: seq<Id>): (r: seq<Option<Todo>>)
    ensures |r| == |ids|
    ensures forall i :: 0 <= i < |ids| ==> (r[i].None? <==> ids[i] !in Ids(todos))
    ensures forall i :: 0 <= i < |ids| && r[i].Some? ==> r[i].value in todos && r[i].value.id == ids[i]
    ensures forall i :: 0 <= i < |ids| && r[i].Some? ==> FirstWithId(todos, ids[i], r[i].value)
  {
    seq(|ids|, i requires 0 <= i < |ids| => Find(todos, ids[i]))
  }

  /** Every record wrapped as found. */
  function Found(todos: seq<Todo>): (r: seq<Option<Todo>>)
    ensures |r| == |todos|
    ensures forall i :: 0 <= i < |todos| ==> r[i] == Some(todos[i])
  {
    seq(|todos|, i requires 0 <= i < |todos| => Some(todos[i]))
  }

  /** With unique ids, reading back the records in an order given as a rearrangement
      of the records yields exactly that rearrangement. */
  lemma UpdateOrderOfRearrangement(todos: seq<Todo>, p: seq<Todo>)
    requires UniqueIds(todos)
    requires multiset(p) == multiset(todos)
    ensures UpdateOrder(todos, Ids(p)) == Found(p)
  {
    forall i | 0 <= i < |p|
      ensures Find(todos, p[i].id) == Some(p[i])
    {
      assert p[i] in multiset(todos);
      var k :| 0 <= k < |todos| && todos[k] == p[i];
      FindUnique(todos, k);
    }
  }

  lemma UpdateOrderSplits(todos: seq<Todo>, a: seq<Id>, b: seq<Id>)
    ensures UpdateOrder(todos, a + b) == UpdateOrder(todos, a) + UpdateOrder(todos, b)
  {
  }

  lemma {:induction false} UpdateOrderMultiset(todos: seq<Todo>, a: seq<Id>, b: seq<Id>)
    requires multiset(a) == multiset(b)
    ensures multiset(UpdateOrder(todos, a)) == multiset(UpdateOrder(todos, b))
    decreases |a|
  {
    if |a| == 0 {
      assert |b| == |multiset(b)| == 0;
    } else {
      var x := a[0];
      var p := MatchHead(a, b);
      var b' := b[..p] + b[p + 1..];
      assert b == b[..p] + [x] + b[p + 1..];
      assert a == [x] + a[1..];
      UpdateOrderMultiset(todos, a[1..], b');
      UpdateOrderSplits(todos, [x], a[1..]);
      UpdateOrderSplits(todos, b[..p] + [x], b[p + 1..]);
      UpdateOrderSplits(todos, b[..p], [x]);
      UpdateOrderSplits(todos, b[..p], b[p + 1..]);
    }
  }

  /** Pairs the head of `a` with an equal entry of its rearrangement `b`; the rests
      are rearrangements of each other. */
  lemma MatchHead<T>(a: seq<T>, b: seq<T>) returns (p: nat)
    requires |a| > 0 && multiset(a) == multiset(b)
    ensures p < |b| && b[p] == a[0]
    ensures multiset(a[1..]) == multiset(b[..p] + b[p + 1..])
  {
    var x := a[0];
    assert x in multiset(b);
    p :| 0 <= p < |b| && b[p] == x;
    assert b == b[..p] + [x] + b[p + 1..];
    assert a == [x] + a[1..];
    calc {
      multiset(a[1..]);
      multiset(a) - multiset{x};
      multiset(b) - multiset{x};
      multiset(b[..p]) + multiset{x} + multiset(b[p + 1..]) - multiset{x};
      multiset(b[..p] + b[p + 1..]);
    }
  }

  /** When the page shows every stored id exactly once, in any order, and the stored
      ids are unique, the rebuilt list holds no undefined entry and is a permutation
      of the stored records. */
  lemma UpdateOrderPermutes(todos: seq<Todo>, ids: seq<Id>)
    requires UniqueIds(todos)
    requires multiset(ids) == multiset(Ids(todos))
    ensures forall i :: 0 <= i < |ids| ==> UpdateOrder(todos, ids)[i].Some?
    ensures multiset(UpdateOrder(todos, ids)) == multiset(Found(todos))
  {
    UpdateOrderOfRearrangement(todos, todos);
    UpdateOrderMultiset(todos, ids, Ids(todos));
    forall i | 0 <= i < |ids| ensures ids[i] in Ids(todos) {
      assert ids[i] in multiset(Ids(todos));
    }
  }

  /** Two records that share an id (two additions within one clock millisecond) are
      not permuted: the first one is found for both elements and the second is lost. */
  lemma UpdateOrderDuplicatesFirst()
    ensures var a := Todo(7, "a", "", false, "");
            var b := Todo(7, "b", "", false, "");
            UpdateOrder([a, b], [7, 7]) == [Some(a), Some(a)]
  {
    var a := Todo(7, "a", "", false, "");
    var b := Todo(7, "b", "", false, "");
    assert FindIndex([a, b], 7) == Some(0);
  }

  /** Exchanging two positions. */
  function Swap<T>(s: seq<T>, i: nat, j: nat): (r: seq<T>)
    requires i < |s| && j < |s|
    ensures |r| == |s| && r[i] == s[j] && r[j] == s[i]
    ensures forall k :: 0 <= k < |s| && k != i && k != j ==> r[k] == s[k]
  {
    s[i := s[j]][j := s[i]]
  }

  /** An exchange rearranges: the same entries, as often as before. */
  lemma SwapPermutes<T>(s: seq<T>, i: nat, j: nat)
    requires i < |s| && j < |s|
    ensures multiset(Swap(s, i, j)) == multiset(s)
  {
  }

  /** `moveTodoUp` on the element at index `i`: it changes places with its previous
      sibling; the first element stays where it is. */
  function MoveUp<T>(view: seq<T>, i: nat): (r: seq<T>)
    requires i < |view|
    ensures |r| == |view|
    ensures i == 0 ==> r == view
    ensures i > 0 ==> r[i - 1] == view[i] && r[i] == view[i - 1]
    ensures forall k :: 0 <= k < |view| && k != i - 1 && k != i ==> r[k] == view[k]
  {
    if i == 0 then view else Swap(view, i - 1, i)
  }

  /** `moveTodoDown` on the element at index `i`: its next sibling is put before it;
      the last element stays where it is. */
  function MoveDown<T>(view: seq<T>, i: nat): (r: seq<T>)
    requires i < |view|
    ensures |r| == |view|
    ensures i + 1 == |view| ==> r == view
    ensures i + 1 < |view| ==> r[i] == view[i + 1] && r[i + 1] == view[i]
    ensures forall k :: 0 <= k < |view| && k != i && k != i + 1 ==> r[k] == view[k]
  {
    if i + 1 < |view| then Swap(view, i, i + 1) else view
  }

  /** Moving an element up and then moving it down again (it is now one place
      higher) restores the order, and the other way round. */
  lemma MoveUpThenDown<T>(view: seq<T>, i: nat)
    requires 0 < i < |view|
    ensures MoveDown(MoveUp(view, i), i - 1) == view
  {
  }

  lemma MoveDownThenUp<T>(view: seq<T>, i: nat)
    requires i + 1 < |view|
    ensures MoveUp(MoveDown(view, i), i + 1) == view
  {
  }

  /** `${n} task` with an `s` unless there is exactly one. */
  function CountLabel(n: nat): (s: string)
    ensures var d := Decimal.DecimalString(n);
      && |d| + 5 <= |s| && s[..|d|] == d && s[|d|..|d| + 5] == " task"
      && Decimal.ParseDecimal(s[..|d|]) == n
      && |s| == |d| + 5 + (if n != 1 then 1 else 0)
      && (n != 1 ==> s[|d| + 5] == 's')
  {
    Decimal.ParseDecimalString(n);
    Decimal.DecimalString(n) + " task" + (if n != 1 then "s" else "")
  }

  /** The visible parts `updateEmptyState` sets. */
  datatype EmptyStateView = EmptyStateView(emptyShown: bool, listShown: bool, counter: string)

  /** `updateEmptyState`: the empty-state message shows exactly when there are no
      tasks, the list exactly otherwise, and the counter names the task count. */
  function EmptyState(todos: seq<Todo>): (v: EmptyStateView)
    ensures v.emptyShown <==> |todos| == 0
    ensures v.listShown <==> !v.emptyShown
    ensures v.counter == CountLabel(|todos|)
  {
    if |todos| == 0 then EmptyStateView(true, false, CountLabel(0))
    else EmptyStateView(false, true, CountLabel(|todos|))
  }

  /** A list with at most one of each id has at most one of each id. */
  lemma {:induction false} DistinctCount(s: seq<Id>, x: Id)
    requires Distinct(s)
    ensures multiset(s)[x] <= 1
    decreases |s|
  {
    if |s| > 0 {
      var t := s[..|s| - 1];
      assert s == t + [s[|s| - 1]];
      DistinctCount(t, x);
      if s[|s| - 1] == x {
        assert x !in t;
      }
    }
  }

  /** Rearranging a list of distinct ids keeps it distinct. */
  lemma DistinctPermutation(a: seq<Id>, b: seq<Id>)
    requires Distinct(a) && multiset(a) == multiset(b)
    ensures Distinct(b)
  {
    forall i, j | 0 <= i < j < |b|
      ensures b[i] != b[j]
    {
      if b[i] == b[j] {
        var x := b[i];
        assert b == b[..i] + [x] + b[i + 1..j] + [x] + b[j + 1..];
        assert multiset(b)[x] >= 2;
        DistinctCount(a, x);
        assert false;
      }
    }
  }
}

=== FILE: trim.dfy ===
/** `String.prototype.trim`: removes leading and trailing white space and line
    terminators as ECMAScript defines them. */
module TextTrim {

  /** ECMAScript WhiteSpace (tab, vertical tab, form feed, space, no-break space, byte
      order mark and the other space separators) and LineTerminator characters. */
  predicate IsSpace(c: char)
  {
    || c == '\t' || c == '\U{000B}' || c == '\U{000C}' || c == ' ' || c == '\U{00A0}'
    || c == '\U{FEFF}' || c == '\U{1680}' || ('\U{2000}' <= c <= '\U{200A}')
    || c == '\U{202F}' || c == '\U{205F}' || c == '\U{3000}'
    || c == '\n' || c == '\r' || c == '\U{2028}' || c == '\U{2029}'
  }

  predicate AllSpace(s: string)
  {
    forall i :: 0 <= i < |s| ==> IsSpace(s[i])
  }

  /** Neither end of `s` is white space. */
  predicate Trimmed(s: string)
  {
    |s| > 0 ==> !IsSpace(s[0]) && !IsSpace(s[|s| - 1])
  }

  /** The length of the white-space run that starts `s`. */
  function LeadingSpace(s: string): (n: nat)
    ensures n <= |s|
    ensures AllSpace(s[..n])
    ensures n < |s| ==> !IsSpace(s[n])
  {
    if |s| == 0 || !IsSpace(s[0]) then 0
    else
      var n := 1 + LeadingSpace(s[1..]);
      assert s[..n] == [s[0]] + s[1..][..n - 1];
      n
  }

  /** The length of the white-space run that ends `s`. */
  function TrailingSpace(s: string): (n: nat)
    ensures n <= |s|
    ensures AllSpace(s[|s| - n..])
    ensures n < |s| ==> !IsSpace(s[|s| - n - 1])
  {
    if |s| == 0 || !IsSpace(s[|s| - 1]) then 0
    else
      var n := 1 + TrailingSpace(s[..|s| - 1]);
      assert s[|s| - n..] == s[..|s| - 1][|s| - n..] + [s[|s| - 1]];
      n
  }

  /** The trimmed string is the middle of `s` with only white space cut off either
      side, and it neither starts nor ends with white space. */
  function Trim(s: string): (r: string)
    ensures Trimmed(r)
    ensures exists i :: 0 <= i <= i + |r| <= |s| && r == s[i..i + |r|]
                        && AllSpace(s[..i]) && AllSpace(s[i + |r|..])
    ensures r == [] <==> AllSpace(s)
  {
    var a := LeadingSpace(s);
    var rest := s[a..];
    var r := rest[..|rest| - TrailingSpace(rest)];
    TrimCut(s);
    r
  }

  lemma TrimCut(s: string)
    ensures var a := LeadingSpace(s);
            var rest := s[a..];
            var r := rest[..|rest| - TrailingSpace(rest)];
            && a + |r| <= |s| && r == s[a..a + |r|]
            && AllSpace(s[..a]) && AllSpace(s[a + |r|..])
            && Trimmed(r)
            && (r == [] <==> AllSpace(s))
  {
    var a := LeadingSpace(s);
    var rest := s[a..];
    var b := TrailingSpace(rest);
    var r := rest[..|rest| - b];
    assert r == s[a..a + |r|];
    assert s[a + |r|..] == rest[|rest| - b..];
    if |r| == 0 {
      assert s == s[..a] + s[a + |r|..];
      AllSpaceConcat(s[..a], s[a + |r|..]);
    }
  }

  lemma AllSpaceConcat(a: string, b: string)
    requires AllSpace(a) && AllSpace(b)
    ensures AllSpace(a + b)
  {
  }

  /** Trimming is determined by the cut: any split of `s` into white space, a
      string with no white space at either end, and white space, yields that middle. */
  lemma TrimUnique(left: string, mid: string, right: string)
    requires AllSpace(left) && AllSpace(right) && Trimmed(mid) && mid != []
    ensures Trim(left + mid + right) == mid
  {
    var s := left + mid + right;
    LeadingRun(left, mid + right);
    assert s == left + (mid + right);
    assert s[|left|..] == mid + right;
    TrailingRun(mid, right);
    assert (mid + right)[..|mid|] == mid;
  }

  lemma {:induction false} LeadingRun(left: string, rest: string)
    requires AllSpace(left) && rest != [] && !IsSpace(rest[0])
    ensures LeadingSpace(left + rest) == |left|
    decreases |left|
  {
    if |left| > 0 {
      LeadingRun(left[1..], rest);
      assert (left + rest)[1..] == left[1..] + rest;
    }
  }

  lemma {:induction false} TrailingRun(rest: string, right: string)
    requires AllSpace(right) && rest != [] && !IsSpace(rest[|rest| - 1])
    ensures TrailingSpace(rest + right) == |right|
    decreases |right|
  {
    if |right| > 0 {
      var r := right[..|right| - 1];
      TrailingRun(rest, r);
      assert (rest + right)[..|rest + right| - 1] == rest + r;
    }
  }

  lemma TrimIdempotent(s: string)
    ensures Trim(Trim(s)) == Trim(s)
  {
    var r := Trim(s);
    if r != [] {
      TrimUnique([], r, []);
      assert [] + r + [] == r;
    }
  }
}

=== FILE: wrappers.dfy ===
/** A value that may be absent: JavaScript's `undefined` result of `find`
    and of a reduce that never picked an element. */
module Wrappers {

  datatype Option<+T> = None | Some(value: T)
}
